=== FILE: README.md ===
# Razorpay billing bridge: webhook reconciliation and action endpoints

This project models the server side of a Next.js application's billing integration with the
Razorpay payment gateway, and proves properties of that model.

The core is the webhook handler (`pages/api/razorpay/webhook.js`). It is modelled as a pure
function from a request, a configuration and a record store to a status code and a new store:

- **Gates.** In order: not POST gives 405. No webhook secret gives 500. A body that does not
  parse as JSON gives 400. A missing `x-razorpay-signature` header gives 400. A wrong signature
  gives 401. No gate writes anything.
- **Event switch.** The switch on `body.event` upserts or updates rows keyed on the gateway's
  ids (`Reconcile.Dispatch`).
- **Error mapping.** An `update` of a missing row (Prisma's P2025) gives 404, with nothing
  written. Any other throw gives 500.
- **No transaction.** The writes of one event are not wrapped in a transaction.
  `subscription.charged` updates the subscription (webhook.js:165) and then upserts the payment
  (:176). When the payment slot holds no entity, or the store refuses that upsert, the answer is
  500 and the update stays (`Webhook.ChargeWithoutPaymentEntityKeepsUpdate`). This is the only
  500 that leaves a write behind (`Webhook.Handle`). After a refused upsert, a retry whose write
  goes through completes the charge as one clean delivery would
  (`Webhook.RetryAfterRefusedPaymentWriteConverges`). A charge whose payment slot holds no entity
  is resent unchanged and so fails the same way on every retry: each answers 500 with the same
  store, and the payment is never recorded (`Webhook.ChargeWithoutPaymentEntityFailsOnRetry`).

The signature is an HMAC over `JSON.stringify` of the *parsed* body, not over the bytes that
arrived (webhook.js:17 and :69). The model follows this. `Signature.RawDigestRefusedAfterReserialisation`
shows what it costs: a digest made over raw bytes is refused whenever re-serialising the parse
changes them.

No guard protects a terminal subscription status (`cancelled`, `completed`). A later event
overwrites it like any other status (`Webhook.TerminalStatusNotProtected`).

The four action endpoints are modelled as decision procedures over the same store:

- cancel-subscription: ownership check, terminal guard, remote cancel at cycle end.
- verify-payment: HMAC over `order_id|payment_id`.
- get-subscription: the caller's newest row by `createdAt`, returned with its
  `razorpaySubscriptionId`.
- create-subscription: makes sure the user has a customer id, then requests a remote
  subscription.

External machinery enters the model as parameters:

- HMAC-SHA256 with hex encoding, `JSON.parse` and `JSON.stringify` are function values
  (`Webhook.Config`).
- The gateway's replies are input values, and each handler reports the remote request it would
  make.
- The store's clock is a `now` argument.
- Whether the store refuses a payment upsert is a `paymentWriteFails` argument.

Amounts stay in integer minor units on the entities. They become `real` major units in the
payment rows (`amount / 100`). Dates are epoch milliseconds.

JavaScript truthiness is modelled explicitly (`Common.Present`): an empty string counts as
missing wherever the code tests with `!x` or `||`. Because of this, a payment whose
`subscription_id` is `""` is stored with `isSubscriptionPayment = false` but with that
`subscriptionId`. The store's ORM ignores an `undefined` value in a `where` filter. So in
cancel-subscription and get-subscription, a session user without an `id` drops the owner filter
(see Findings).

Modules: `Common`, `Records` (store), `Envelope` (parsed body, event names), `Signature`,
`Reconcile` (per-event effects), `Webhook`, `Cancel`, `VerifyPayment`, `GetSubscription`,
`CreateSubscription`.

## Model

| member | source | states |
|---|---|---|
| Common.ErrorStatus | pages/api/razorpay/cancel-subscription.js:75-81 | A thrown value with a truthy `statusCode` and `error.description` passes its status through; anything else answers 500 |
| Records.UserByCustomer | pages/api/razorpay/webhook.js:131 | The lookup by customer id returns the user holding that id, or none exactly when no user holds it (under the store's unique constraint) |
| Envelope.Classify | pages/api/razorpay/webhook.js:83-243 | A non-default case is selected only by that event's own name |
| Envelope.ClassifyEventName | pages/api/razorpay/webhook.js:83-233 | Each of the six event names selects its own case |
| Envelope.UnhandledNames | pages/api/razorpay/webhook.js:241-242 | An event falls to the default case if and only if its name is none of the six recognised names |
| Signature.VerifySignature | pages/api/razorpay/webhook.js:14-20 | Fails whenever the secret is absent or empty; succeeds only when the header equals the HMAC of the re-serialised body |
| Signature.SignedBodyVerifies | pages/api/razorpay/webhook.js:14-20 | Round trip: the HMAC of a body's re-serialisation, checked with the same secret, is accepted |
| Signature.OtherBodyRefused | pages/api/razorpay/webhook.js:14-20 | For an HMAC that separates messages, a digest is refused for any body that serialises differently |
| Signature.RawDigestRefusedAfterReserialisation | pages/api/razorpay/webhook.js:51-69 | A digest over the raw bytes is refused whenever the re-serialisation of their parse differs from them |
| Reconcile.CapturedOwner | pages/api/razorpay/webhook.js:103 | The owner is `notes.internal_user_id` when truthy, else `UNKNOWN_USER` |
| Reconcile.ToMajorUnits | pages/api/razorpay/webhook.js:94 | The stored amount times 100 equals the entity's amount in paise |
| Reconcile.UpsertCapturedPayment | pages/api/razorpay/webhook.js:90-114 | Exactly one row, keyed by the entity id, is added or changed and all others stay. Status, amount, currency, method, order id, notes and signature come from the event. On create, owner, subscription flag and subscription id come from the entity; on update they are preserved |
| Reconcile.ApplyActivated | pages/api/razorpay/webhook.js:126-157 | With no user for the customer id the store is unchanged. Otherwise one row keyed by the entity id holds that user, the plan, the status and `current_end * 1000`; `createdAt` is kept on update. Users and payments are untouched |
| Reconcile.ChargeUpdated | pages/api/razorpay/webhook.js:165-171 | The first write of a charge sets the row's status and `current_end * 1000` and keeps its owner, plan and creation time; no other row, user or payment changes |
| Reconcile.ApplyCharged | pages/api/razorpay/webhook.js:159-194 | A missing subscription fails with not-found and writes nothing. Otherwise the update is done first. A payment slot without an entity, or a refused payment write, then fails internally with the update kept. Only when both are absent does the charge succeed. An existing payment then only gets status `captured`; a new one is a captured subscription payment owned by the subscription's user, with no signature |
| Reconcile.ApplyStatus | pages/api/razorpay/webhook.js:196-233 | A missing subscription fails with not-found. Otherwise only that row's status changes, to the entity's status; owner, plan, period end and creation time stay |
| Reconcile.Dispatch | pages/api/razorpay/webhook.js:79-243 | An unrecognised event writes nothing, and no event touches users. Not-found happens exactly when a charge or status event carries a readable entity whose id the store lacks; it then writes nothing. An internal failure happens exactly when the payload lacks what the case reads before writing, or the payment write is refused or has no entity. Each readable event applies its own effect: the captured payment upsert (when the write goes through), the activation upsert, the two-step charge, or the status update. Only a charge past its update leaves a write behind on failure |
| Webhook.FaultStatus | pages/api/razorpay/webhook.js:247-255 | Not-found maps to 404 and every other failure to 500, and only those |
| Webhook.Process | pages/api/razorpay/webhook.js:77-255 | After the gates the answer is 200, 404 or 500. A `null` body gives 500. A parsed body gets the switch's store, with 200 when the event succeeded and otherwise the fault's status. A 404 writes nothing. A non-200 answer that wrote something is a 500 for a charge of a stored subscription, and the store then holds exactly that charge's update |
| Webhook.Handle | pages/api/razorpay/webhook.js:40-255 | Gate order 405, 500 (no secret, whatever the body), 400 (bad JSON, before the header check), 400 (no header), each writing nothing. 401 exactly for a header that differs from the HMAC of the re-serialised body, which includes every member of the parse, read by the switch or not. A refusal writes nothing, except a 500 for a charge stopped after its subscription update |
| Webhook.SignedRequestReachesSwitch | pages/api/razorpay/webhook.js:61-75 | A POST carrying the HMAC of its re-serialised body passes every gate and is answered by the event switch |
| Webhook.AbsentSubscriptionAnswersNotFound | pages/api/razorpay/webhook.js:159-233 | A signed charge, halt, cancellation or completion for a subscription id the store lacks answers 404 and writes nothing |
| Webhook.UnhandledEventIsAcknowledged | pages/api/razorpay/webhook.js:241-245 | A signed event outside the six names answers 200 and writes nothing |
| Webhook.ActivationForUnknownCustomerIsAcknowledged | pages/api/razorpay/webhook.js:126-136 | A signed activation for a customer id no user holds answers 200 and writes nothing |
| Webhook.ChargeWithoutPaymentEntityKeepsUpdate | pages/api/razorpay/webhook.js:162-191 | A signed charge for a stored subscription whose payment slot has no entity answers 500. The subscription's new status and period end stay, and no payment is recorded |
| Webhook.ChargeWithoutPaymentEntityFailsOnRetry | pages/api/razorpay/webhook.js:162-191 | Resending a charge whose payment slot has no entity answers 500 again with the same store, and no payment is ever recorded |
| Webhook.AlteredUnreadMemberRefused | pages/api/razorpay/webhook.js:14-20 | A signed body resent with a change only in a member the switch never reads, under the original header, answers 401 and writes nothing, for a serialisation and digest that tell the bodies apart |
| Webhook.SignedOneTimeCaptureRecordsPayment | pages/api/razorpay/webhook.js:40-124 | End to end: a signed one-time capture of 99900 paise for u1 answers 200 and records one payment of 999.00 INR owned by u1, not a subscription payment, carrying the header; nothing else changes |
| Webhook.RedeliveryIsIdempotent | pages/api/razorpay/webhook.js:83-255 | Delivering the same request twice answers the same status and leaves the same store as delivering it once, even with a later clock, including a 500 that wrote the charge's update |
| Webhook.RetryAfterRefusedPaymentWriteConverges | pages/api/razorpay/webhook.js:159-255 | A delivery whose payment write was refused, followed by a retry whose write goes through, gives the same answer and store as one successful delivery |
| Webhook.DispatchIdempotent | pages/api/razorpay/webhook.js:83-243 | Every event's effect, applied again to what it left behind, gives the same fault and store |
| Webhook.DispatchRetryConverges | pages/api/razorpay/webhook.js:83-243 | For every event, a refused payment write followed by a successful retry ends where one successful delivery ends |
| Webhook.UpsertIdempotent | pages/api/razorpay/webhook.js:90-114 | Applying the same `payment.captured` upsert twice equals applying it once |
| Webhook.ActivatedIdempotent | pages/api/razorpay/webhook.js:139-154 | The `subscription.activated` upsert is idempotent |
| Webhook.ChargeUpdatedIdempotent | pages/api/razorpay/webhook.js:165-171 | Repeating a charge's subscription update changes nothing |
| Webhook.ChargedIdempotent | pages/api/razorpay/webhook.js:165-191 | Repeating `subscription.charged` on what it left, whether it succeeded or failed part-way, gives the same result |
| Webhook.ChargedRetryConverges | pages/api/razorpay/webhook.js:165-191 | A charge whose payment write was refused, retried with the write going through, equals one successful charge |
| Webhook.StatusIdempotent | pages/api/razorpay/webhook.js:196-233 | Repeating a status update gives the same result |
| Webhook.ActivatedThenCharged | pages/api/razorpay/webhook.js:139-191 | Activation then charge for one id leaves one row with the charge's status and period end and the activation's owner and plan |
| Webhook.TerminalStatusNotProtected | pages/api/razorpay/webhook.js:139-146 | A cancelled or completed row takes the status of a later activation |
| Webhook.CapturedOneTimePaymentScenario | pages/api/razorpay/webhook.js:101-113 | 99900 paise with `internal_user_id` u1 and no subscription id gives 999.00 INR owned by u1, not a subscription payment |
| Webhook.ActivationScenario | pages/api/razorpay/webhook.js:126-154 | Activation at `current_end` 1700000000 for u1's customer id stores u1, plan_x, active and 1700000000000 ms |
| Cancel.AfterRemote | pages/api/razorpay/cancel-subscription.js:50-81 | The remote cancel is requested with `cancel_at_cycle_end: 1`. Success answers 200 echoing the gateway's status and `schedule_change_at`. A falsy reply answers 500; gateway errors pass through |
| Cancel.CancelSubscription | pages/api/razorpay/cancel-subscription.js:8-81 | 405, 401, then 400 for a missing id before any lookup. The gateway is called exactly when the row matches the filter and is not terminal; otherwise the answer is 404 or 400 and never 200. A falsy reply answers 500; gateway errors pass through |
| Cancel.CancelOnlyOwnWithUserId | pages/api/razorpay/cancel-subscription.js:19-40 | When the session carries a user id, only a subscription owned by that user is ever sent to the gateway |
| Cancel.CancelWithoutUserIdIgnoresOwner | pages/api/razorpay/cancel-subscription.js:19-40 | A session user without an id cancels another user's subscription |
| Cancel.CancelSubscriptionChecked | pages/api/razorpay/cancel-subscription.js:16-40 | A session without a user id is refused with 401; any remote cancel concerns a non-terminal row owned by the caller |
| VerifyPayment.SignedMessage | pages/api/razorpay/verify-payment.js:30 | The message is the order id, one `|`, then the payment id |
| VerifyPayment.SignedMessageInjective | pages/api/razorpay/verify-payment.js:30 | For order ids without `|`, the message determines both ids |
| VerifyPayment.Verify | pages/api/razorpay/verify-payment.js:12-68 | 405, then 500 for an unset secret before field checks, then 400 for any missing field. `verified: true` (200) if and only if the HMAC of the message equals the signature; `verified: false` comes with 400 |
| VerifyPayment.VerdictIgnoresStore | pages/api/razorpay/verify-payment.js:46-63 | The answer depends neither on the store's contents nor on whether the payment lookup fails |
| VerifyPayment.CheckoutSignatureAccepted | pages/api/razorpay/verify-payment.js:30-37 | A signature made with the key secret over `order|payment` is accepted with 200 |
| GetSubscription.LatestMatching | pages/api/user/get-subscription.js:21-31 | Returns none exactly when no row matches the filter, else a matching row with maximal `createdAt` |
| GetSubscription.Get | pages/api/user/get-subscription.js:7-39 | 405 for non-GET, 401 without a session user. Otherwise 200 with null exactly when no row matches the caller's filter. Else the answer is the matching row created last, with its own `razorpaySubscriptionId` |
| GetSubscription.GetWithoutUserIdLeaks | pages/api/user/get-subscription.js:18-39 | A session user without an id receives another user's subscription and its id |
| GetSubscription.GetChecked | pages/api/user/get-subscription.js:15-39 | A non-null result is a stored row under its own id, belongs to the caller and is its newest row; null exactly when the caller owns none |
| CreateSubscription.TotalCount | pages/api/razorpay/create-subscription.js:26 | `total_count` is the given count; 12 when the field is absent or null |
| CreateSubscription.RequestSubscription | pages/api/razorpay/create-subscription.js:65-97 | The subscription request carries the plan, the resolved customer id, the total count, quantity 1 and customer notification 1. A created subscription answers 200 with its id and status, the customer id and the plan id. A falsy reply answers 500; gateway errors pass through |
| CreateSubscription.Create | pages/api/razorpay/create-subscription.js:8-112 | Gates 405, 401, 401, 400 and 404 touch nothing. A valid request for a caller with a customer id reuses it: no customer call, no write, and the subscription call names it. A caller without one gets a customer call. A created id no other user holds is saved on the caller's row only and then names the subscription call; one another user holds answers 500 with nothing saved. A falsy or failed customer reply stops with nothing saved and no subscription call. A created subscription answers 200 with its id, status, the customer id and the plan; the body has a subscription id exactly then. No subscription or payment row is ever written, and customer ids stay unique |

## Findings

| source | as written | input that shows it | evidently intended | confidence | as-written member | corrected member |
|---|---|---|---|---|---|---|
| pages/api/razorpay/cancel-subscription.js:19-36 | The ownership filter uses `session.user.id`; an `undefined` value drops it from the `where` | A session user with no `id`, and subscription `sub_1` owned by `alice` | Refuse with 401 as create-subscription.js:21-23 does, so only the caller's subscription can be cancelled | not executed; depends on the session callback leaving `id` unset | Cancel.CancelWithoutUserIdIgnoresOwner | Cancel.CancelSubscriptionChecked |
| pages/api/user/get-subscription.js:18-31 | The `userId` filter is dropped the same way, so `findFirst` ranges over every user's rows | A session user with no `id`, and a store whose only row belongs to `alice` | Refuse with 401, so that only the caller's row is returned | not executed; depends on the session callback leaving `id` unset | GetSubscription.GetWithoutUserIdLeaks | GetSubscription.GetChecked |

## Left out

- Logging, `prisma.$disconnect` and the warnings at module load are not modelled. None of them affects a status code or the store, with one exception: the log line at webhook.js:77 reads `body.event` outside the `try`, so a `null` body throws there and the framework answers 500. `Webhook.Process` models that 500.
- Raw-body streaming (`getRawBody`) is not modelled: the body text is an input. A stream error rejects at webhook.js:51, outside the `try`, so the framework answers 500 with nothing written.
- How `JSON.parse` reads `event`, `payload` and the entities out of the text is part of the `parse` parameter; the model does not derive them from the text. The parse keeps the members the switch does not read, so the signature covers them.
- HMAC-SHA256, hex encoding, `JSON.parse` and `JSON.stringify` are parameters, not implementations. Timing behaviour of the string comparison is out of scope.
- The Razorpay SDK and next-auth are outside the model. Their results are inputs: the gateway's reply to each call, and the session.
- Entity fields the code reads without a null check are assumed present with their types: payment id, status, amount, currency and method; subscription id, customer id, plan id, status and `current_end`. A missing or null `payment`/`subscription` slot, or a slot without an entity, is modelled. A missing field is not. In the source the ORM drops an `undefined` value from an update's data and keeps that column. So a halted, cancelled or completed event whose entity lacks `status` answers 200 and changes nothing. A charge without `status` still writes the period end. An activation or a recapture of an existing row keeps the old value of a missing field. In a create, a missing required column makes the ORM refuse the write and answer 500; for the payment writes, `paymentWriteFails` stands for that refusal. The model also does not distinguish a JSON key that is absent from one that is `null`. The ORM's update leaves a field unchanged for the former and clears it for the latter.
- Webhook store failures other than a refused payment upsert are not modelled: a failing user lookup, subscription upsert or non-P2025 update failure. Each throws before anything of its event is written, so it would answer 500 with the store unchanged.
- The database schema is not part of this model. Foreign keys (a payment's `userId` such as `UNKNOWN_USER`) are not checked, and internal row ids are not modelled.
- Store failures in cancel-subscription, get-subscription and create-subscription are not modelled; they would answer 500. In verify-payment, a failed lookup is a parameter and is shown not to matter.
- A request body that is not an object in the action endpoints (where destructuring would throw) is not modelled.
- CreateSubscription.TotalCount: folds `null` into absent and requests 12 for `total_count: null`. In the source the destructuring default at create-subscription.js:26 applies only to `undefined`, so `null` is sent to the gateway as is. The request body's parse is not modelled, so the two are not told apart.
- The `keyId` field (an environment variable) and the `message` texts of the responses are not modelled.
- Create-order, the settings page and the plan-setup script are not part of this model.
- Concurrent or out-of-order delivery is out of scope: one request at a time is applied to the store.
- Cancel.CancelSubscription: does not promise 200 for a gateway error that carries status 200, because the code passes any truthy status through; only the successful reply is promised 200.

=== FILE: cancel.dfy ===
/** The cancel-subscription endpoint: validate, check that the caller owns
    the subscription, refuse a terminal one, then ask the gateway to cancel
    at the end of the billing cycle. The handler reads the store and never
    writes it, so its result carries no store. */
module Cancel {
  import opened Common
  import opened Records

  /** `{ razorpay_subscription_id }` of the request body, plus the session. */
  datatype CancelRequest = CancelRequest(httpMethod: string, session: Option<Session>, subscriptionId: Option<string>)

  /** The call the handler makes on the gateway SDK. */
  datatype RemoteCancel = RemoteCancel(subscriptionId: SubscriptionId, cancelAtCycleEnd: int)

  /** What the gateway answers to the cancel call, if it is made.
      `NoCancelReply` is a falsy value returned without a throw: reading its
      `status` then throws a TypeError, which the catch answers with 500. */
  datatype CancelReply =
    | Cancelled(status: string, scheduleChangeAt: Option<int>)
    | NoCancelReply
    | CancelFailed(error: Thrown)

  /** Status code, the echoed gateway `status` and `schedule_change_at`, and
      the remote call made, if any. */
  datatype CancelResponse = CancelResponse(
    status: int,
    remoteStatus: Option<string>,
    scheduleChangeAt: Option<int>,
    remoteCall: Option<RemoteCancel>)

  predicate Terminal(status: string) {
    status == "cancelled" || status == "completed"
  }

  /** The `findFirst` filter on subscription id and user id. An `undefined`
      user id drops that half of the filter, as the store does. */
  predicate OwnedBy(subs: map<SubscriptionId, Subscription>, sid: SubscriptionId, userId: Option<UserId>) {
    sid in subs && (userId.None? || subs[sid].userId == userId.value)
  }

  /** The response after the gateway was asked to cancel. */
  function AfterRemote(sid: SubscriptionId, reply: CancelReply): (r: CancelResponse)
    ensures r.remoteCall == Some(RemoteCancel(sid, 1))
    ensures reply.Cancelled? ==>
              r.status == StatusOk && r.remoteStatus == Some(reply.status) && r.scheduleChangeAt == reply.scheduleChangeAt
    ensures reply.NoCancelReply? ==> r.status == StatusInternalError
    ensures reply.CancelFailed? ==> r.status == ErrorStatus(reply.error)
  {
    match reply
    case Cancelled(status, at) => CancelResponse(StatusOk, Some(status), at, Some(RemoteCancel(sid, 1)))
    case NoCancelReply => CancelResponse(ErrorStatus(OtherError), None, None, Some(RemoteCancel(sid, 1)))
    case CancelFailed(err) => CancelResponse(ErrorStatus(err), None, None, Some(RemoteCancel(sid, 1)))
  }

  /** The handler as written. `reply` is what the gateway would answer. */
  function CancelSubscription(req: CancelRequest, store: Store, reply: CancelReply): (r: CancelResponse)
    ensures req.httpMethod != "POST" ==> r.status == StatusMethodNotAllowed
    ensures req.httpMethod == "POST" && !SignedIn(req.session) ==> r.status == StatusUnauthorized
    ensures req.httpMethod == "POST" && SignedIn(req.session) && !Present(req.subscriptionId) ==>
              r.status == StatusBadRequest
    // the gateway is asked exactly when the request is valid, the row
    // matches the filter and its status is not terminal
    ensures r.remoteCall.Some? <==>
              && req.httpMethod == "POST" && SignedIn(req.session) && Present(req.subscriptionId)
              && OwnedBy(store.subscriptions, req.subscriptionId.value, req.session.value.user.value.id)
              && !Terminal(store.subscriptions[req.subscriptionId.value].status)
    ensures r.remoteCall.Some? ==> r.remoteCall.value == RemoteCancel(req.subscriptionId.value, 1)
    ensures req.httpMethod == "POST" && SignedIn(req.session) && Present(req.subscriptionId)
            && !OwnedBy(store.subscriptions, req.subscriptionId.value, req.session.value.user.value.id)
            ==> r.status == StatusNotFound
    ensures req.httpMethod == "POST" && SignedIn(req.session) && Present(req.subscriptionId)
            && OwnedBy(store.subscriptions, req.subscriptionId.value, req.session.value.user.value.id)
            && Terminal(store.subscriptions[req.subscriptionId.value].status)
            ==> r.status == StatusBadRequest
    ensures r.remoteCall.None? ==> r.status != StatusOk
    ensures r.remoteCall.Some? && reply.Cancelled? ==>
              && r.status == StatusOk
              && r.remoteStatus == Some(reply.status) && r.scheduleChangeAt == reply.scheduleChangeAt
    ensures r.remoteCall.Some? && reply.NoCancelReply? ==> r.status == StatusInternalError
    ensures r.remoteCall.Some? && reply.CancelFailed? ==> r.status == ErrorStatus(reply.error)
  {
    if req.httpMethod != "POST" then
      CancelResponse(StatusMethodNotAllowed, None, None, None)
    else if !SignedIn(req.session) then
      CancelResponse(StatusUnauthorized, None, None, None)
    else
      var userId := req.session.value.user.value.id;
      if !Present(req.subscriptionId) then
        CancelResponse(StatusBadRequest, None, None, None)
      else
        var sid := req.subscriptionId.value;
        if !OwnedBy(store.subscriptions, sid, userId) then
          CancelResponse(StatusNotFound, None, None, None)
        else if Terminal(store.subscriptions[sid].status) then
          CancelResponse(StatusBadRequest, None, None, None)
        else
          AfterRemote(sid, reply)
  }

  /** With a user id in the session, the gateway is only ever asked to
      cancel a subscription the caller owns. */
  lemma CancelOnlyOwnWithUserId(req: CancelRequest, store: Store, reply: CancelReply)
    requires SignedIn(req.session) && req.session.value.user.value.id.Some?
    ensures var r := CancelSubscription(req, store, reply);
            r.remoteCall.Some? ==>
              && r.remoteCall.value.subscriptionId in store.subscriptions
              && store.subscriptions[r.remoteCall.value.subscriptionId].userId == req.session.value.user.value.id.value
  {
  }

  /** As written, a session without a user id cancels someone else's
      subscription: the filter is reduced to the subscription id. */
  lemma CancelWithoutUserIdIgnoresOwner()
    ensures var store := Store(map[], map["sub_1" := Subscription("alice", "plan_x", "active", 0, 0)], map[]);
            var req := CancelRequest("POST", Some(Session(Some(SessionUser(None, Some("mallory@example.com"), None)))),
                                     Some("sub_1"));
            var r := CancelSubscription(req, store, Cancelled("active", Some(1700000000)));
            && r.status == StatusOk
            && r.remoteCall == Some(RemoteCancel("sub_1", 1))
            && store.subscriptions["sub_1"].userId != "mallory@example.com"
  {
  }

  /** The corrected handler: a session without a user id is refused with
      401, as create-subscription already does. */
  function CancelSubscriptionChecked(req: CancelRequest, store: Store, reply: CancelReply): (r: CancelResponse)
    ensures req.httpMethod == "POST" && SignedIn(req.session) && req.session.value.user.value.id.None? ==>
              r.status == StatusUnauthorized && r.remoteCall.None?
    ensures r.remoteCall.Some? ==>
              && SignedIn(req.session) && req.session.value.user.value.id.Some?
              && r.remoteCall.value.subscriptionId in store.subscriptions
              && store.subscriptions[r.remoteCall.value.subscriptionId].userId == req.session.value.user.value.id.value
              && !Terminal(store.subscriptions[r.remoteCall.value.subscriptionId].status)
    ensures SignedIn(req.session) && req.session.value.user.value.id.Some? ==>
              r == CancelSubscription(req, store, reply)
  {
    if req.httpMethod == "POST" && SignedIn(req.session) && req.session.value.user.value.id.None? then
      CancelResponse(StatusUnauthorized, None, None, None)
    else
      CancelSubscription(req, store, reply)
  }
}

=== FILE: common.dfy ===
/** Vocabulary shared by every handler: optional values, JavaScript string
    truthiness, the HTTP status codes the handlers answer with, the errors a
    remote call can throw, and the shape of an authenticated session. */
module Common {

  /** A value that may be absent (JavaScript `undefined` or `null`). */
  datatype Option<+T> = None | Some(value: T)

  /** JavaScript truthiness of an optional string: absent, null and the empty
      string are all falsy. */
  predicate Present(s: Option<string>) {
    s.Some? && s.value != ""
  }

  const StatusOk: int := 200
  const StatusBadRequest: int := 400
  const StatusUnauthorized: int := 401
  const StatusNotFound: int := 404
  const StatusMethodNotAllowed: int := 405
  const StatusInternalError: int := 500

  /** What a remote gateway call can throw: an SDK error carrying the
      gateway's HTTP status and an `error.description`, or anything else. */
  datatype Thrown =
    | GatewayError(statusCode: int, description: Option<string>)
    | OtherError

  /** True when the thrown value passes the `error.statusCode &&
      error.error && error.error.description` test of the handlers. */
  predicate PassesThrough(e: Thrown) {
    e.GatewayError? && e.statusCode != 0 && Present(e.description)
  }

  /** The status a handler's catch block answers with. */
  function ErrorStatus(e: Thrown): (code: int)
    ensures PassesThrough(e) ==> code == e.statusCode
    ensures !PassesThrough(e) ==> code == StatusInternalError
  {
    if PassesThrough(e) then e.statusCode else StatusInternalError
  }

  /** The `user` part of a next-auth session; `id` is only there when the
      session callback adds it. */
  datatype SessionUser = SessionUser(id: Option<string>, email: Option<string>, name: Option<string>)

  /** A next-auth session; `user` may be missing. */
  datatype Session = Session(user: Option<SessionUser>)

  /** The `!session || !session.user` test. */
  predicate SignedIn(session: Option<Session>) {
    session.Some? && session.value.user.Some?
  }
}

=== FILE: create_subscription.dfy ===
/** The create-subscription endpoint: make sure the caller has a gateway
    customer id (creating and saving one when absent), then ask the gateway
    for a subscription on the plan. No local subscription row is written;
    that is left to the webhook. */
module CreateSubscription {
  import opened Common
  import opened Records

  /** `{ plan_id, total_count }` of the request body, plus the session. */
  datatype CreateRequest = CreateRequest(
    httpMethod: string,
    session: Option<Session>,
    planId: Option<string>,
    totalCount: Option<int>)

  /** `customerDetails` sent to the gateway. */
  datatype CustomerRequest = CustomerRequest(name: string, email: Option<string>, contact: string, internalUserId: UserId)

  /** `subscriptionOptions` sent to the gateway. */
  datatype SubscriptionRequest = SubscriptionRequest(
    planId: string,
    customerId: CustomerId,
    totalCount: int,
    quantity: int,
    customerNotify: int,
    internalUserId: UserId,
    planSelected: string)

  /** `NoCustomer` is a falsy value returned without a throw: reading its
      `id` then throws a TypeError, which the catch answers with 500 before
      anything is saved. */
  datatype CustomerReply = CustomerCreated(id: CustomerId) | NoCustomer | CustomerFailed(error: Thrown)

  /** `NoSubscription` is a falsy value returned without a throw. */
  datatype SubscriptionReply =
    | SubscriptionCreated(id: string, status: string)
    | NoSubscription
    | SubscriptionFailed(error: Thrown)

  /** Status code, the store afterwards, the remote calls made, and the
      `subscriptionId`, `razorpayCustomerId`, `planId` and `status` of a 200
      body. */
  datatype CreateOutcome = CreateOutcome(
    status: int,
    store: Store,
    customerCall: Option<CustomerRequest>,
    subscriptionCall: Option<SubscriptionRequest>,
    subscriptionId: Option<string>,
    customerId: Option<CustomerId>,
    planId: Option<string>,
    remoteStatus: Option<string>)

  /** `total_count = 12`: the default applies when the field is missing.
      `None` stands for both an absent and a `null` field, although the
      destructuring default replaces only the former. */
  function TotalCount(given: Option<int>): (n: int)
    ensures given.Some? ==> n == given.value
    ensures given.None? ==> n == 12
  {
    match given
    case Some(n) => n
    case None => 12
  }

  /** `user.name || session.user.name || 'N/A'`. */
  function CustomerName(stored: Option<string>, fromSession: Option<string>): string {
    if Present(stored) then stored.value
    else if Present(fromSession) then fromSession.value
    else "N/A"
  }

  /** The remote subscription request and its reply, once the customer id is
      settled; `store` already holds it. */
  function RequestSubscription(store: Store, customerCall: Option<CustomerRequest>, uid: UserId, planId: string,
                               totalCount: Option<int>, customerId: CustomerId, reply: SubscriptionReply)
    : (o: CreateOutcome)
    ensures o.store == store && o.customerCall == customerCall
    ensures o.subscriptionCall == Some(SubscriptionRequest(planId, customerId, TotalCount(totalCount), 1, 1, uid, planId))
    ensures reply.SubscriptionCreated? ==>
              && o.status == StatusOk && o.subscriptionId == Some(reply.id) && o.customerId == Some(customerId)
              && o.planId == Some(planId) && o.remoteStatus == Some(reply.status)
    ensures reply.NoSubscription? ==> o.status == StatusInternalError
    ensures reply.SubscriptionFailed? ==> o.status == ErrorStatus(reply.error)
  {
    var call := Some(SubscriptionRequest(planId, customerId, TotalCount(totalCount), 1, 1, uid, planId));
    match reply
    case SubscriptionCreated(id, status) =>
      CreateOutcome(StatusOk, store, customerCall, call, Some(id), Some(customerId), Some(planId), Some(status))
    case NoSubscription => CreateOutcome(StatusInternalError, store, customerCall, call, None, None, None, None)
    case SubscriptionFailed(err) => CreateOutcome(ErrorStatus(err), store, customerCall, call, None, None, None, None)
  }

  predicate Authenticated(session: Option<Session>) {
    SignedIn(session) && Present(session.value.user.value.email)
  }

  /** The request passes every check before the first remote call: POST, a
      session with an email and a user id, a plan id, and a stored user. */
  predicate Valid(req: CreateRequest, store: Store) {
    && req.httpMethod == "POST" && Authenticated(req.session)
    && Present(req.session.value.user.value.id) && Present(req.planId)
    && req.session.value.user.value.id.value in store.users
  }

  /** A user other than `uid` already holds customer id `cid`. */
  predicate HeldByOther(users: map<UserId, User>, uid: UserId, cid: CustomerId) {
    exists u :: u in users && u != uid && users[u].customerId == Some(cid)
  }

  /** The handler. `customerReply` and `subscriptionReply` are what the
      gateway would answer to each call. Saving a customer id another user
      already holds breaks the store's unique constraint and answers 500. */
  function Create(req: CreateRequest, store: Store, customerReply: CustomerReply, subscriptionReply: SubscriptionReply)
    : (o: CreateOutcome)
    requires CustomerIdsUnique(store.users)
    ensures req.httpMethod != "POST" ==> o.status == StatusMethodNotAllowed
    ensures req.httpMethod == "POST" && !Authenticated(req.session) ==> o.status == StatusUnauthorized
    ensures req.httpMethod == "POST" && Authenticated(req.session) && !Present(req.session.value.user.value.id) ==>
              o.status == StatusUnauthorized
    ensures req.httpMethod == "POST" && Authenticated(req.session) && Present(req.session.value.user.value.id)
            && !Present(req.planId)
            ==> o.status == StatusBadRequest
    ensures req.httpMethod == "POST" && Authenticated(req.session) && Present(req.session.value.user.value.id)
            && Present(req.planId) && req.session.value.user.value.id.value !in store.users
            ==> o.status == StatusNotFound
    // a refusal before the user lookup touches nothing remote or local
    ensures !Valid(req, store) ==> o.store == store && o.customerCall.None? && o.subscriptionCall.None?
    // no local subscription or payment row on any path
    ensures o.store.subscriptions == store.subscriptions && o.store.payments == store.payments
    ensures CustomerIdsUnique(o.store.users)
    ensures o.store.users.Keys == store.users.Keys
    ensures o.store != store ==>
              var uid := req.session.value.user.value.id.value;
              && (forall u :: u in store.users && u != uid ==> o.store.users[u] == store.users[u])
              && o.customerCall.Some? && customerReply.CustomerCreated?
              && o.store.users[uid] == store.users[uid].(customerId := Some(customerReply.id))
    // an existing customer id is reused: no customer call, no write
    ensures o.customerCall.None? ==> o.store == store
    ensures o.customerCall.Some? ==>
              var uid := req.session.value.user.value.id.value;
              && uid in store.users && !Present(store.users[uid].customerId)
              && o.customerCall.value.internalUserId == uid
              && o.customerCall.value.email == store.users[uid].email
    // a customer call the gateway did not answer with a customer stops before any write or second call
    ensures o.customerCall.Some? && customerReply.NoCustomer? ==>
              o.status == StatusInternalError && o.store == store && o.subscriptionCall.None?
    ensures o.customerCall.Some? && customerReply.CustomerFailed? ==>
              o.status == ErrorStatus(customerReply.error) && o.store == store && o.subscriptionCall.None?
    // a valid request reaches the gateway: a caller without a customer id gets one created
    ensures Valid(req, store) && !Present(store.users[req.session.value.user.value.id.value].customerId) ==>
              o.customerCall.Some?
    // ... saved on the caller's row when no other user holds it, and then used
    ensures Valid(req, store) && !Present(store.users[req.session.value.user.value.id.value].customerId)
            && customerReply.CustomerCreated? && !HeldByOther(store.users, req.session.value.user.value.id.value, customerReply.id)
            ==> var uid := req.session.value.user.value.id.value;
                && o.store.users == store.users[uid := store.users[uid].(customerId := Some(customerReply.id))]
                && o.subscriptionCall.Some? && o.subscriptionCall.value.customerId == customerReply.id
    // ... and refused with 500 before the subscription call when another user holds it
    ensures Valid(req, store) && !Present(store.users[req.session.value.user.value.id.value].customerId)
            && customerReply.CustomerCreated? && HeldByOther(store.users, req.session.value.user.value.id.value, customerReply.id)
            ==> o.status == StatusInternalError && o.store == store && o.subscriptionCall.None?
    // an existing customer id goes straight to the subscription call
    ensures Valid(req, store) && Present(store.users[req.session.value.user.value.id.value].customerId) ==>
              && o.subscriptionCall.Some?
              && Some(o.subscriptionCall.value.customerId) == store.users[req.session.value.user.value.id.value].customerId
    // the subscription reply decides the answer
    ensures o.subscriptionCall.Some? && subscriptionReply.SubscriptionCreated? ==>
              && o.status == StatusOk
              && o.subscriptionId == Some(subscriptionReply.id)
              && o.customerId == Some(o.subscriptionCall.value.customerId)
              && o.planId == req.planId
              && o.remoteStatus == Some(subscriptionReply.status)
    ensures o.subscriptionCall.Some? && subscriptionReply.NoSubscription? ==> o.status == StatusInternalError
    ensures o.subscriptionCall.Some? && subscriptionReply.SubscriptionFailed? ==>
              o.status == ErrorStatus(subscriptionReply.error)
    ensures o.subscriptionId.Some? <==> o.subscriptionCall.Some? && subscriptionReply.SubscriptionCreated?
    // the subscription request names the plan and the customer id now saved
    ensures o.subscriptionCall.Some? ==>
              var uid := req.session.value.user.value.id.value;
              var call := o.subscriptionCall.value;
              && uid in o.store.users && o.store.users[uid].customerId == Some(call.customerId)
              && (Present(store.users[uid].customerId) ==> call.customerId == store.users[uid].customerId.value)
              && call.planId == req.planId.value
              && call.totalCount == TotalCount(req.totalCount)
              && call.quantity == 1
              && call.internalUserId == uid
  {
    if req.httpMethod != "POST" then
      CreateOutcome(StatusMethodNotAllowed, store, None, None, None, None, None, None)
    else if !Authenticated(req.session) then
      CreateOutcome(StatusUnauthorized, store, None, None, None, None, None, None)
    else
      var sessionUser := req.session.value.user.value;
      if !Present(sessionUser.id) then
        CreateOutcome(StatusUnauthorized, store, None, None, None, None, None, None)
      else if !Present(req.planId) then
        CreateOutcome(StatusBadRequest, store, None, None, None, None, None, None)
      else
        var uid := sessionUser.id.value;
        var planId := req.planId.value;
        if uid !in store.users then
          CreateOutcome(StatusNotFound, store, None, None, None, None, None, None)
        else
          var user := store.users[uid];
          if Present(user.customerId) then
            RequestSubscription(store, None, uid, planId, req.totalCount, user.customerId.value, subscriptionReply)
          else
            var call := Some(CustomerRequest(CustomerName(user.name, sessionUser.name), user.email, "", uid));
            match customerReply
            case NoCustomer =>
              CreateOutcome(ErrorStatus(OtherError), store, call, None, None, None, None, None)
            case CustomerFailed(err) =>
              CreateOutcome(ErrorStatus(err), store, call, None, None, None, None, None)
            case CustomerCreated(cid) =>
              if HeldByOther(store.users, uid, cid) then
                CreateOutcome(StatusInternalError, store, call, None, None, None, None, None)
              else
                var saved := store.(users := store.users[uid := user.(customerId := Some(cid))]);
                RequestSubscription(saved, call, uid, planId, req.totalCount, cid, subscriptionReply)
  }
}

=== FILE: envelope.dfy ===
/** The parsed webhook body: an event name and a payload holding the
    gateway's payment and/or subscription entity. */
module Envelope {
  import opened Common
  import opened Records

  /** `payload.payment.entity`. `amount` is in minor units (paise). The
      fields the gateway sends as `null` for some payments are optional. */
  datatype PaymentEntity = PaymentEntity(
    id: PaymentId,
    status: string,
    amount: int,
    currency: string,
    paymentMethod: string,
    orderId: Option<string>,
    subscriptionId: Option<SubscriptionId>,
    notes: Option<Notes>)

  /** `payload.subscription.entity`. `currentEnd` is a Unix timestamp in
      seconds. */
  datatype SubscriptionEntity = SubscriptionEntity(
    id: SubscriptionId,
    customerId: CustomerId,
    planId: string,
    status: string,
    currentEnd: int)

  /** One slot of the payload, `payload.payment` or `payload.subscription`.
      `Missing`: the key is absent or null, so reading `.entity` throws.
      `NoEntity`: the object is there but its `entity` is not, so reading
      `.entity` yields `undefined` and only reading a field of it throws.
      `Entity`: the entity itself. */
  datatype Slot<+T> = Missing | NoEntity | Entity(entity: T)

  /** `body.payload`. */
  datatype Payload = Payload(payment: Slot<PaymentEntity>, subscription: Slot<SubscriptionEntity>)

  /** A JSON value as `JSON.parse` returns it; object members keep their
      order, which `JSON.stringify` reproduces. */
  datatype Json =
    | JNull
    | JBool(b: bool)
    | JNumber(n: real)
    | JString(s: string)
    | JArray(items: seq<Json>)
    | JObject(members: seq<(string, Json)>)

  /** A parsed JSON body: the literal `null`, on which reading `.event`
      throws, or any other value. The switch reads its `event`, which is
      `None` when it is not a string, and its `payload`, which is `None`
      when it is absent or null. `rest` is everything else in the value:
      the other members, and the members of each entity the switch does
      not read. So two bodies that differ anywhere, even in a member the
      switch ignores, are different values, and their serialisations may
      differ. */
  datatype Body =
    | NullBody
    | Parsed(event: Option<string>, payload: Option<Payload>, rest: Json)

  /** The entity in a slot, if any. */
  function EntityOf<T>(slot: Slot<T>): (r: Option<T>)
    ensures r.Some? <==> slot.Entity?
    ensures r.Some? ==> r.value == slot.entity
  {
    match slot
    case Entity(e) => Some(e)
    case _ => None
  }

  /** The events the reconciliation switch recognises. */
  datatype Event =
    | PaymentCaptured
    | SubscriptionActivated
    | SubscriptionCharged
    | SubscriptionHalted
    | SubscriptionCancelled
    | SubscriptionCompleted
    | Unhandled

  /** The gateway's name for a recognised event. */
  function EventName(e: Event): string
    requires !e.Unhandled?
  {
    match e
    case PaymentCaptured => "payment.captured"
    case SubscriptionActivated => "subscription.activated"
    case SubscriptionCharged => "subscription.charged"
    case SubscriptionHalted => "subscription.halted"
    case SubscriptionCancelled => "subscription.cancelled"
    case SubscriptionCompleted => "subscription.completed"
  }

  /** The `switch (event)`: which case an event name selects. */
  function Classify(name: Option<string>): (e: Event)
    ensures !e.Unhandled? ==> name == Some(EventName(e))
  {
    match name
    case None => Unhandled
    case Some(n) =>
      if n == "payment.captured" then PaymentCaptured
      else if n == "subscription.activated" then SubscriptionActivated
      else if n == "subscription.charged" then SubscriptionCharged
      else if n == "subscription.halted" then SubscriptionHalted
      else if n == "subscription.cancelled" then SubscriptionCancelled
      else if n == "subscription.completed" then SubscriptionCompleted
      else Unhandled
  }

  /** Every recognised event is selected by its own name, so a name falls to
      the default case exactly when it is none of the six. */
  lemma ClassifyEventName(e: Event)
    requires !e.Unhandled?
    ensures Classify(Some(EventName(e))) == e
  {
  }

  /** Only the six names reach a non-default case. */
  lemma UnhandledNames(name: Option<string>)
    ensures Classify(name).Unhandled? <==>
      forall e: Event :: !e.Unhandled? ==> name != Some(EventName(e))
  {
  }
}

=== FILE: get_subscription.dfy ===
/** The get-subscription endpoint: the caller's most recently created
    subscription row, or null. The handler only reads the store. */
module GetSubscription {
  import opened Common
  import opened Records

  datatype GetRequest = GetRequest(httpMethod: string, session: Option<Session>)

  /** A subscription as the body returns it: the row together with its
      `razorpaySubscriptionId`, the key the client passes to cancellation. */
  datatype SubscriptionRow = SubscriptionRow(razorpaySubscriptionId: SubscriptionId, row: Subscription)

  /** Status code and the `subscription` field of the body. */
  datatype GetResponse = GetResponse(status: int, subscription: Option<SubscriptionRow>)

  /** `r` is a row of `subs` under its own key. */
  predicate Stored(subs: map<SubscriptionId, Subscription>, r: SubscriptionRow) {
    r.razorpaySubscriptionId in subs && subs[r.razorpaySubscriptionId] == r.row
  }

  /** The `where: { userId }` filter; an `undefined` user id matches every
      row, as the store treats it. */
  predicate Matches(s: Subscription, userId: Option<UserId>) {
    userId.None? || s.userId == userId.value
  }

  /** `k` is a matching row with the greatest `createdAt` among the
      matching rows: what `orderBy: { createdAt: 'desc' }` puts first. */
  predicate IsLatest(subs: map<SubscriptionId, Subscription>, userId: Option<UserId>, k: SubscriptionId) {
    && k in subs && Matches(subs[k], userId)
    && forall j :: j in subs && Matches(subs[j], userId) ==> subs[j].createdAt <= subs[k].createdAt
  }

  /** `findFirst` with the filter and the descending order. Rows tied on
      `createdAt` may come back in any order. */
  method LatestMatching(subs: map<SubscriptionId, Subscription>, userId: Option<UserId>)
    returns (r: Option<SubscriptionId>)
    ensures r.None? <==> forall k :: k in subs ==> !Matches(subs[k], userId)
    ensures r.Some? ==> IsLatest(subs, userId, r.value)
  {
    r := None;
    var rest := subs.Keys;
    while rest != {}
      invariant rest <= subs.Keys
      invariant r.None? ==> forall k :: k in subs && k !in rest ==> !Matches(subs[k], userId)
      invariant r.Some? ==> r.value in subs && Matches(subs[r.value], userId)
      invariant r.Some? ==> forall k :: k in subs && k !in rest && Matches(subs[k], userId) ==>
                  subs[k].createdAt <= subs[r.value].createdAt
      decreases rest
    {
      var k :| k in rest;
      rest := rest - {k};
      if Matches(subs[k], userId) && (r.None? || subs[r.value].createdAt < subs[k].createdAt) {
        r := Some(k);
      }
    }
  }

  /** The handler as written. */
  method Get(req: GetRequest, store: Store) returns (resp: GetResponse)
    ensures req.httpMethod != "GET" ==> resp == GetResponse(StatusMethodNotAllowed, None)
    ensures req.httpMethod == "GET" && !SignedIn(req.session) ==> resp == GetResponse(StatusUnauthorized, None)
    ensures req.httpMethod == "GET" && SignedIn(req.session) ==>
              var userId := req.session.value.user.value.id;
              && resp.status == StatusOk
              && (resp.subscription.None? <==>
                    forall k :: k in store.subscriptions ==> !Matches(store.subscriptions[k], userId))
              && (resp.subscription.Some? ==>
                    && Stored(store.subscriptions, resp.subscription.value)
                    && IsLatest(store.subscriptions, userId, resp.subscription.value.razorpaySubscriptionId))
  {
    if req.httpMethod != "GET" {
      return GetResponse(StatusMethodNotAllowed, None);
    }
    if !SignedIn(req.session) {
      return GetResponse(StatusUnauthorized, None);
    }
    var userId := req.session.value.user.value.id;
    var found := LatestMatching(store.subscriptions, userId);
    match found {
      case None =>
        resp := GetResponse(StatusOk, None);
      case Some(k) =>
        resp := GetResponse(StatusOk, Some(SubscriptionRow(k, store.subscriptions[k])));
    }
  }

  /** As written, a session without a user id is answered with another
      user's row and its key: the filter matches every row. */
  method GetWithoutUserIdLeaks() returns (resp: GetResponse)
    ensures resp.subscription == Some(SubscriptionRow("sub_1", Subscription("alice", "plan_x", "active", 0, 0)))
    ensures resp.subscription.value.row.userId != "mallory@example.com"
  {
    var store := Store(map[], map["sub_1" := Subscription("alice", "plan_x", "active", 0, 0)], map[]);
    var session := Session(Some(SessionUser(None, Some("mallory@example.com"), None)));
    resp := Get(GetRequest("GET", Some(session)), store);
    assert IsLatest(store.subscriptions, None, "sub_1");
  }

  /** The corrected handler: a session without a user id is refused with
      401. A returned row then belongs to the caller and no row of the
      caller's is newer; the result is null exactly when the caller owns no
      row. */
  method GetChecked(req: GetRequest, store: Store) returns (resp: GetResponse)
    ensures req.httpMethod != "GET" ==> resp.status == StatusMethodNotAllowed
    ensures req.httpMethod == "GET" && !(SignedIn(req.session) && req.session.value.user.value.id.Some?) ==>
              resp == GetResponse(StatusUnauthorized, None)
    ensures resp.subscription.Some? ==>
              && SignedIn(req.session) && req.session.value.user.value.id.Some?
              && Stored(store.subscriptions, resp.subscription.value)
              && resp.subscription.value.row.userId == req.session.value.user.value.id.value
    ensures req.httpMethod == "GET" && SignedIn(req.session) && req.session.value.user.value.id.Some? ==>
              var caller := req.session.value.user.value.id.value;
              && resp.status == StatusOk
              && (resp.subscription.None? <==>
                    forall k :: k in store.subscriptions ==> store.subscriptions[k].userId != caller)
              && (resp.subscription.Some? ==>
                    forall k :: k in store.subscriptions && store.subscriptions[k].userId == caller ==>
                      store.subscriptions[k].createdAt <= resp.subscription.value.row.createdAt)
  {
    if req.httpMethod == "GET" && !(SignedIn(req.session) && req.session.value.user.value.id.Some?) {
      return GetResponse(StatusUnauthorized, None);
    }
    resp := Get(req, store);
  }
}

=== FILE: reconcile.dfy ===
/** The effects of the webhook's event switch on the store. Every write is
    an upsert or an update keyed on a gateway id. An `update` on a missing
    row fails with the store's "record not found" error before anything is
    written; every other throw is an internal failure. The writes run
    without a transaction: `subscription.charged` updates the subscription
    and then upserts the payment, so a throw between the two leaves the
    update in place. */
module Reconcile {
  import opened Common
  import opened Records
  import opened Envelope

  /** Prisma's P2025 ("record to update not found") versus any other throw. */
  datatype Fault = RecordNotFound | Internal

  /** What an event did: the store afterwards, and the fault when the
      handler threw. A failure's store holds whatever was written before the
      throw. */
  datatype Result = Done(store: Store) | Failed(fault: Fault, store: Store)

  /** Owner recorded for a payment created from `payment.captured`:
      `notes.internal_user_id`, or the sentinel when that is falsy. */
  function CapturedOwner(notes: Option<Notes>): (u: UserId)
    ensures notes.Some? && "internal_user_id" in notes.value && notes.value["internal_user_id"] != ""
            ==> u == notes.value["internal_user_id"]
    ensures !(notes.Some? && "internal_user_id" in notes.value && notes.value["internal_user_id"] != "")
            ==> u == "UNKNOWN_USER"
  {
    if notes.Some? && "internal_user_id" in notes.value && notes.value["internal_user_id"] != "" then
      notes.value["internal_user_id"]
    else
      "UNKNOWN_USER"
  }

  /** `amount / 100`: minor units to major units. */
  function ToMajorUnits(minor: int): (major: real)
    ensures major * 100.0 == minor as real
  {
    minor as real / 100.0
  }

  /** The row `payment.captured` creates for an unseen payment id. */
  function CapturedPayment(e: PaymentEntity, signature: string): Payment {
    Payment(
      userId := CapturedOwner(e.notes),
      status := e.status,
      amount := ToMajorUnits(e.amount),
      currency := e.currency,
      paymentMethod := e.paymentMethod,
      orderId := e.orderId,
      isSubscriptionPayment := Present(e.subscriptionId),
      subscriptionId := e.subscriptionId,
      notes := e.notes,
      signature := Some(signature))
  }

  /** The `update` branch of `payment.captured`'s upsert. */
  function RecaptureUpdate(p: Payment, e: PaymentEntity, signature: string): Payment {
    p.(status := e.status,
       amount := ToMajorUnits(e.amount),
       currency := e.currency,
       paymentMethod := e.paymentMethod,
       orderId := e.orderId,
       notes := e.notes,
       signature := Some(signature))
  }

  /** `payment.captured`: upsert the payment keyed by the entity id. */
  function UpsertCapturedPayment(payments: map<PaymentId, Payment>, e: PaymentEntity, signature: string)
    : (r: map<PaymentId, Payment>)
    ensures r.Keys == payments.Keys + {e.id}
    ensures forall k :: k in payments && k != e.id ==> r[k] == payments[k]
    // fields every delivery writes
    ensures && r[e.id].status == e.status
            && r[e.id].amount * 100.0 == e.amount as real
            && r[e.id].currency == e.currency
            && r[e.id].paymentMethod == e.paymentMethod
            && r[e.id].orderId == e.orderId
            && r[e.id].notes == e.notes
            && r[e.id].signature == Some(signature)
    // fields only the first delivery writes
    ensures e.id !in payments ==>
              && r[e.id].userId == CapturedOwner(e.notes)
              && r[e.id].isSubscriptionPayment == Present(e.subscriptionId)
              && r[e.id].subscriptionId == e.subscriptionId
    ensures e.id in payments ==>
              && r[e.id].userId == payments[e.id].userId
              && r[e.id].isSubscriptionPayment == payments[e.id].isSubscriptionPayment
              && r[e.id].subscriptionId == payments[e.id].subscriptionId
  {
    if e.id in payments then
      payments[e.id := RecaptureUpdate(payments[e.id], e, signature)]
    else
      payments[e.id := CapturedPayment(e, signature)]
  }


  /** `subscription.activated`: resolve the owner by customer id; when there
      is none, write nothing; otherwise upsert the subscription keyed by the
      entity id. `now` is the store's clock, read only when a row is created. */
  function ApplyActivated(store: Store, e: SubscriptionEntity, now: int): (r: Store)
    requires CustomerIdsUnique(store.users)
    ensures r.users == store.users && r.payments == store.payments
    ensures UserByCustomer(store.users, e.customerId).None? ==> r == store
    ensures UserByCustomer(store.users, e.customerId).Some? ==>
              && r.subscriptions.Keys == store.subscriptions.Keys + {e.id}
              && (forall k :: k in store.subscriptions && k != e.id ==> r.subscriptions[k] == store.subscriptions[k])
              && r.subscriptions[e.id].userId == UserByCustomer(store.users, e.customerId).value
              && store.users[r.subscriptions[e.id].userId].customerId == Some(e.customerId)
              && r.subscriptions[e.id].planId == e.planId
              && r.subscriptions[e.id].status == e.status
              && r.subscriptions[e.id].currentPeriodEnd == e.currentEnd * 1000
              && r.subscriptions[e.id].createdAt ==
                   (if e.id in store.subscriptions then store.subscriptions[e.id].createdAt else now)
  {
    match UserByCustomer(store.users, e.customerId)
    case None => store
    case Some(owner) =>
      var row :=
        if e.id in store.subscriptions then
          store.subscriptions[e.id].(
            status := e.status,
            planId := e.planId,
            currentPeriodEnd := e.currentEnd * 1000,
            userId := owner)
        else
          Subscription(owner, e.planId, e.status, e.currentEnd * 1000, now);
      store.(subscriptions := store.subscriptions[e.id := row])
  }

  /** The row the payment upsert of `subscription.charged` creates. */
  function ChargedPayment(e: PaymentEntity, owner: UserId, subscriptionId: SubscriptionId): Payment {
    Payment(
      userId := owner,
      status := "captured",
      amount := ToMajorUnits(e.amount),
      currency := e.currency,
      paymentMethod := e.paymentMethod,
      orderId := e.orderId,
      isSubscriptionPayment := true,
      subscriptionId := Some(subscriptionId),
      notes := e.notes,
      signature := None)
  }

  /** The store after the first of `subscription.charged`'s two writes:
      the subscription's status and period end replaced, nothing else. */
  function ChargeUpdated(store: Store, se: SubscriptionEntity): (r: Store)
    requires se.id in store.subscriptions
    ensures r.users == store.users && r.payments == store.payments
    ensures r.subscriptions.Keys == store.subscriptions.Keys
    ensures forall k :: k in store.subscriptions && k != se.id ==> r.subscriptions[k] == store.subscriptions[k]
    ensures var before := store.subscriptions[se.id];
            var after := r.subscriptions[se.id];
            && after.status == se.status
            && after.currentPeriodEnd == se.currentEnd * 1000
            && after.userId == before.userId
            && after.planId == before.planId
            && after.createdAt == before.createdAt
  {
    store.(subscriptions := store.subscriptions[se.id :=
      store.subscriptions[se.id].(status := se.status, currentPeriodEnd := se.currentEnd * 1000)])
  }

  /** `subscription.charged`: update the subscription's status and period
      end (failing with "not found" before any write when it is missing),
      then upsert the payment: an existing one only gets status "captured".
      `pe` is `None` when the payment slot holds no entity, which throws
      only once the upsert reads its id; `paymentWriteFails` says the store
      refuses the upsert. Either way the update stays. */
  function ApplyCharged(store: Store, se: SubscriptionEntity, pe: Option<PaymentEntity>, paymentWriteFails: bool)
    : (r: Result)
    ensures se.id !in store.subscriptions <==> r == Failed(RecordNotFound, store)
    ensures r.Failed? && r.fault == Internal <==>
              se.id in store.subscriptions && (pe.None? || paymentWriteFails)
    ensures r.Failed? && r.fault == Internal ==> r.store == ChargeUpdated(store, se)
    ensures r.Done? ==>
              var s := r.store;
              var before := store.subscriptions[se.id];
              var p := pe.value;
              && s.users == store.users
              && s.subscriptions == ChargeUpdated(store, se).subscriptions
              && s.payments.Keys == store.payments.Keys + {p.id}
              && (forall k :: k in store.payments && k != p.id ==> s.payments[k] == store.payments[k])
              && (p.id in store.payments ==>
                    s.payments[p.id] == store.payments[p.id].(status := "captured"))
              && (p.id !in store.payments ==>
                    && s.payments[p.id].isSubscriptionPayment
                    && s.payments[p.id].subscriptionId == Some(se.id)
                    && s.payments[p.id].userId == before.userId
                    && s.payments[p.id].status == "captured"
                    && s.payments[p.id].amount * 100.0 == p.amount as real
                    && s.payments[p.id].signature.None?)
  {
    if se.id !in store.subscriptions then
      Failed(RecordNotFound, store)
    else
      var updated := ChargeUpdated(store, se);
      match pe
      case None => Failed(Internal, updated)
      case Some(p) =>
        if paymentWriteFails then
          Failed(Internal, updated)
        else
          var payment :=
            if p.id in store.payments then store.payments[p.id].(status := "captured")
            else ChargedPayment(p, updated.subscriptions[se.id].userId, se.id);
          Done(updated.(payments := store.payments[p.id := payment]))
  }

  /** `subscription.halted`, `.cancelled` and `.completed`: an update of the
      status alone. No guard keeps a terminal status from being overwritten. */
  function ApplyStatus(store: Store, se: SubscriptionEntity): (r: Result)
    ensures se.id !in store.subscriptions <==> r == Failed(RecordNotFound, store)
    ensures r.Done? ==>
              var s := r.store;
              var before := store.subscriptions[se.id];
              && s.users == store.users && s.payments == store.payments
              && s.subscriptions.Keys == store.subscriptions.Keys
              && (forall k :: k in store.subscriptions && k != se.id ==> s.subscriptions[k] == store.subscriptions[k])
              && s.subscriptions[se.id].status == se.status
              && s.subscriptions[se.id].userId == before.userId
              && s.subscriptions[se.id].planId == before.planId
              && s.subscriptions[se.id].currentPeriodEnd == before.currentPeriodEnd
              && s.subscriptions[se.id].createdAt == before.createdAt
  {
    if se.id !in store.subscriptions then
      Failed(RecordNotFound, store)
    else
      Done(store.(subscriptions := store.subscriptions[se.id :=
        store.subscriptions[se.id].(status := se.status)]))
  }

  /** The events whose case issues an `update` and so can fail with "not
      found". */
  predicate Updates(e: Event) {
    e in {SubscriptionCharged, SubscriptionHalted, SubscriptionCancelled, SubscriptionCompleted}
  }

  /** The payload holds what the selected case reads before its first
      write: a missing slot, or a slot without an entity whose field the
      case reads at once, throws before anything is written. The charge
      reads its payment entity only after the update. */
  predicate Readable(e: Event, payload: Option<Payload>) {
    match e
    case Unhandled => true
    case PaymentCaptured => payload.Some? && payload.value.payment.Entity?
    case SubscriptionCharged =>
      payload.Some? && payload.value.subscription.Entity? && !payload.value.payment.Missing?
    case _ => payload.Some? && payload.value.subscription.Entity?
  }

  /** The event switch. `now` is the store's clock; `paymentWriteFails` says
      the store refuses the payment upsert of `payment.captured` or
      `subscription.charged` (a required field missing from the entity, or
      a store error). */
  function Dispatch(store: Store, event: Option<string>, payload: Option<Payload>, signature: string, now: int,
                    paymentWriteFails: bool)
    : (r: Result)
    requires CustomerIdsUnique(store.users)
    ensures Classify(event).Unhandled? ==> r == Done(store)
    ensures r.store.users == store.users
    // "not found" exactly when an update names an absent subscription, and then nothing is written
    ensures r.Failed? && r.fault == RecordNotFound ==>
              && r.store == store && Updates(Classify(event)) && Readable(Classify(event), payload)
              && payload.value.subscription.entity.id !in store.subscriptions
    ensures Updates(Classify(event)) && Readable(Classify(event), payload)
            && payload.value.subscription.entity.id !in store.subscriptions
            ==> r == Failed(RecordNotFound, store)
    // an internal failure: an unreadable payload, or a refused or unreadable payment write
    ensures r.Failed? && r.fault == Internal <==>
              || !Readable(Classify(event), payload)
              || (Classify(event) == PaymentCaptured && paymentWriteFails)
              || (&& Classify(event) == SubscriptionCharged
                  && payload.value.subscription.entity.id in store.subscriptions
                  && (payload.value.payment.NoEntity? || paymentWriteFails))
    // which effect each readable event applies
    ensures Classify(event) == PaymentCaptured && Readable(Classify(event), payload) && !paymentWriteFails ==>
              r == Done(store.(payments := UpsertCapturedPayment(store.payments, payload.value.payment.entity, signature)))
    ensures Classify(event) == SubscriptionActivated && Readable(Classify(event), payload) ==>
              r == Done(ApplyActivated(store, payload.value.subscription.entity, now))
    ensures Classify(event) == SubscriptionCharged && Readable(Classify(event), payload) ==>
              r == ApplyCharged(store, payload.value.subscription.entity, EntityOf(payload.value.payment),
                                paymentWriteFails)
    ensures Updates(Classify(event)) && Classify(event) != SubscriptionCharged && Readable(Classify(event), payload) ==>
              r == ApplyStatus(store, payload.value.subscription.entity)
    // only a charge that got past its update leaves a write behind on failure
    ensures r.Failed? && r.store != store ==>
              && r.fault == Internal && Classify(event) == SubscriptionCharged && Readable(Classify(event), payload)
              && payload.value.subscription.entity.id in store.subscriptions
              && r.store == ChargeUpdated(store, payload.value.subscription.entity)
  {
    var e := Classify(event);
    if !Readable(e, payload) then
      Failed(Internal, store)
    else
      match e
      case Unhandled => Done(store)
      case PaymentCaptured =>
        if paymentWriteFails then Failed(Internal, store)
        else Done(store.(payments := UpsertCapturedPayment(store.payments, payload.value.payment.entity, signature)))
      case SubscriptionActivated =>
        Done(ApplyActivated(store, payload.value.subscription.entity, now))
      case SubscriptionCharged =>
        ApplyCharged(store, payload.value.subscription.entity, EntityOf(payload.value.payment), paymentWriteFails)
      case _ =>
        ApplyStatus(store, payload.value.subscription.entity)
  }
}

=== FILE: records.dfy ===
/** The record store the handlers read and write: users, subscriptions keyed
    by the gateway's subscription id, and payments keyed by the gateway's
    payment id. Internal row ids are not modelled: every lookup the handlers
    make goes through a unique external key. */
module Records {
  import opened Common

  type UserId = string
  type CustomerId = string
  type SubscriptionId = string
  type PaymentId = string

  /** Free-form `notes` object of a gateway entity. */
  type Notes = map<string, string>

  /** The application's user row; `customerId` is the gateway customer id,
      unique across users. */
  datatype User = User(email: Option<string>, name: Option<string>, customerId: Option<CustomerId>)

  /** A subscription row. `currentPeriodEnd` and `createdAt` are epoch
      milliseconds. */
  datatype Subscription = Subscription(
    userId: UserId,
    planId: string,
    status: string,
    currentPeriodEnd: int,
    createdAt: int)

  /** A payment row; `amount` is in major currency units. */
  datatype Payment = Payment(
    userId: UserId,
    status: string,
    amount: real,
    currency: string,
    paymentMethod: string,
    orderId: Option<string>,
    isSubscriptionPayment: bool,
    subscriptionId: Option<SubscriptionId>,
    notes: Option<Notes>,
    signature: Option<string>)

  datatype Store = Store(
    users: map<UserId, User>,
    subscriptions: map<SubscriptionId, Subscription>,
    payments: map<PaymentId, Payment>)

  /** The store's unique constraint on the users' gateway customer id. */
  predicate CustomerIdsUnique(users: map<UserId, User>) {
    forall a, b ::
      a in users && b in users && users[a].customerId.Some? && users[a].customerId == users[b].customerId
      ==> a == b
  }

  /** `findUnique` on the customer id: the one user holding `c`, if any. */
  function UserByCustomer(users: map<UserId, User>, c: CustomerId): (r: Option<UserId>)
    requires CustomerIdsUnique(users)
    ensures r.Some? ==> r.value in users && users[r.value].customerId == Some(c)
    ensures r.None? ==> forall u :: u in users ==> users[u].customerId != Some(c)
  {
    if exists u :: u in users && users[u].customerId == Some(c) then
      var u :| u in users && users[u].customerId == Some(c);
      Some(u)
    else
      None
  }
}

=== FILE: signature.dfy ===
/** The webhook's signature check. HMAC-SHA256 with hex encoding and
    `JSON.stringify` are external; they enter as function values. The digest
    is taken over the RE-SERIALISED parsed body, not over the bytes that
    arrived, and compared with plain string equality. */
module Signature {
  import opened Common
  import opened Envelope

  /** Hex digest of HMAC-SHA256 keyed with the first argument over the second. */
  type Hmac = (string, string) -> string

  /** `JSON.stringify` of a parsed body. */
  type Stringify = Body -> string

  /** `verifySignature(body, signature, secret)`. */
  function VerifySignature(hmac: Hmac, stringify: Stringify, body: Body, signature: string, secret: Option<string>): (ok: bool)
    ensures !Present(secret) ==> !ok
    ensures ok ==> signature == hmac(secret.value, stringify(body))
  {
    Present(secret) && hmac(secret.value, stringify(body)) == signature
  }

  /** A digest computed over the re-serialised body is accepted. */
  lemma SignedBodyVerifies(hmac: Hmac, stringify: Stringify, body: Body, secret: string)
    requires secret != ""
    ensures VerifySignature(hmac, stringify, body, hmac(secret, stringify(body)), Some(secret))
  {
  }

  /** When the digest separates messages under this key, a digest made for
      one serialisation is refused for any body that serialises otherwise. */
  lemma OtherBodyRefused(hmac: Hmac, stringify: Stringify, body: Body, other: Body, secret: string)
    requires forall m1, m2 :: hmac(secret, m1) == hmac(secret, m2) ==> m1 == m2
    requires stringify(other) != stringify(body)
    ensures !VerifySignature(hmac, stringify, other, hmac(secret, stringify(body)), Some(secret))
  {
  }

  /** A digest the gateway made over the raw bytes is refused whenever the
      re-serialisation of their parse differs from those bytes. */
  lemma RawDigestRefusedAfterReserialisation(hmac: Hmac, stringify: Stringify, raw: string, body: Body, secret: string)
    requires forall m1, m2 :: hmac(secret, m1) == hmac(secret, m2) ==> m1 == m2
    requires stringify(body) != raw
    ensures !VerifySignature(hmac, stringify, body, hmac(secret, raw), Some(secret))
  {
  }
}

=== FILE: verify_payment.dfy ===
/** The verify-payment endpoint: recompute the checkout signature over
    `order_id|payment_id` and compare. The store lookup that follows a match
    only feeds a log line; the handler never writes the store. */
module VerifyPayment {
  import opened Common
  import opened Records
  import opened Signature

  /** The three body fields, plus the HTTP method. */
  datatype VerifyRequest = VerifyRequest(
    httpMethod: string,
    orderId: Option<string>,
    paymentId: Option<string>,
    signature: Option<string>)

  /** Status code and the `verified` flag, absent on the early refusals. */
  datatype VerifyResponse = VerifyResponse(status: int, verified: Option<bool>)

  /** The signed message `${order_id}|${payment_id}`. */
  function SignedMessage(orderId: string, paymentId: string): (m: string)
    ensures |m| == |orderId| + 1 + |paymentId|
    ensures m[..|orderId|] == orderId && m[|orderId|] == '|' && m[|orderId| + 1..] == paymentId
  {
    orderId + "|" + paymentId
  }

  /** An order id never contains the separator, so the message determines
      both ids. */
  lemma SignedMessageInjective(o1: string, p1: string, o2: string, p2: string)
    requires '|' !in o1 && '|' !in o2
    requires SignedMessage(o1, p1) == SignedMessage(o2, p2)
    ensures o1 == o2 && p1 == p2
  {
  }

  /** The handler. `lookupFails` says whether the store lookup after a
      match throws; that error is caught and only logged. */
  function Verify(req: VerifyRequest, keySecret: Option<string>, hmac: Hmac, store: Store, lookupFails: bool)
    : (r: VerifyResponse)
    ensures req.httpMethod != "POST" ==> r == VerifyResponse(StatusMethodNotAllowed, None)
    ensures req.httpMethod == "POST" && !Present(keySecret) ==> r == VerifyResponse(StatusInternalError, None)
    ensures req.httpMethod == "POST" && Present(keySecret)
            && !(Present(req.orderId) && Present(req.paymentId) && Present(req.signature))
            ==> r == VerifyResponse(StatusBadRequest, None)
    ensures r.verified == Some(true) <==>
              && req.httpMethod == "POST" && Present(keySecret)
              && Present(req.orderId) && Present(req.paymentId) && Present(req.signature)
              && hmac(keySecret.value, SignedMessage(req.orderId.value, req.paymentId.value)) == req.signature.value
    ensures r.verified == Some(true) ==> r.status == StatusOk
    ensures r.verified == Some(false) ==> r.status == StatusBadRequest
    ensures req.httpMethod == "POST" && Present(keySecret)
            && Present(req.orderId) && Present(req.paymentId) && Present(req.signature)
            ==> r.verified.Some?
  {
    if req.httpMethod != "POST" then
      VerifyResponse(StatusMethodNotAllowed, None)
    else if !Present(keySecret) then
      VerifyResponse(StatusInternalError, None)
    else if !(Present(req.orderId) && Present(req.paymentId) && Present(req.signature)) then
      VerifyResponse(StatusBadRequest, None)
    else
      var expected := hmac(keySecret.value, SignedMessage(req.orderId.value, req.paymentId.value));
      if expected == req.signature.value then
        // the store lookup made here, and its failure, only feed a log line
        VerifyResponse(StatusOk, Some(true))
      else
        VerifyResponse(StatusBadRequest, Some(false))
  }

  /** The verdict depends on neither the store's contents nor whether the
      lookup failed. This holds by construction: `Verify` never reads
      `store` or `lookupFails`, which stand for the lookup the handler makes
      after a match and whose result, or error, only feeds a log line. The
      lemma records that neither can change the answer. */
  lemma VerdictIgnoresStore(req: VerifyRequest, keySecret: Option<string>, hmac: Hmac,
                            s1: Store, f1: bool, s2: Store, f2: bool)
    ensures Verify(req, keySecret, hmac, s1, f1) == Verify(req, keySecret, hmac, s2, f2)
  {
  }

  /** A checkout signature produced with the key secret over the two ids
      is accepted. */
  lemma CheckoutSignatureAccepted(orderId: string, paymentId: string, keySecret: string, hmac: Hmac)
    requires orderId != "" && paymentId != "" && keySecret != ""
    requires hmac(keySecret, SignedMessage(orderId, paymentId)) != ""
    ensures var sig := hmac(keySecret, SignedMessage(orderId, paymentId));
            Verify(VerifyRequest("POST", Some(orderId), Some(paymentId), Some(sig)), Some(keySecret), hmac,
                   Store(map[], map[], map[]), false)
            == VerifyResponse(StatusOk, Some(true))
  {
  }
}

=== FILE: webhook.dfy ===
/** The webhook handler: the gate sequence, the event switch and the mapping
    of thrown errors to status codes, as one function from a request and a
    store to a status code and a new store. */
module Webhook {
  import opened Common
  import opened Records
  import opened Envelope
  import opened Signature
  import opened Reconcile

  /** An inbound call: HTTP method, the `x-razorpay-signature` header and
      the raw body text. */
  datatype Request = Request(httpMethod: string, signature: Option<string>, rawBody: string)

  /** The handler's environment: the webhook secret read at start-up and the
      external JSON and HMAC functions. `parse` answers `None` where
      `JSON.parse` throws. */
  datatype Config = Config(
    secret: Option<string>,
    parse: string -> Option<Body>,
    stringify: Stringify,
    hmac: Hmac)

  datatype Outcome = Outcome(status: int, store: Store)

  /** The status the catch block answers with. */
  function FaultStatus(f: Fault): (code: int)
    ensures f == RecordNotFound <==> code == StatusNotFound
    ensures f == Internal <==> code == StatusInternalError
  {
    match f
    case RecordNotFound => StatusNotFound
    case Internal => StatusInternalError
  }

  /** Everything after the signature gate. A `null` body makes the log line
      throw before the `try`, which the framework answers with 500. */
  function Process(body: Body, signature: string, store: Store, now: int, paymentWriteFails: bool): (o: Outcome)
    requires CustomerIdsUnique(store.users)
    ensures o.status in {StatusOk, StatusNotFound, StatusInternalError}
    ensures body.NullBody? ==> o == Outcome(StatusInternalError, store)
    // a parsed body is answered by the switch: 200 with the new store, or the fault's status
    ensures body.Parsed? ==>
              var r := Dispatch(store, body.event, body.payload, signature, now, paymentWriteFails);
              && o.store == r.store
              && (r.Done? ==> o.status == StatusOk)
              && (r.Failed? ==> o.status == FaultStatus(r.fault))
    ensures o.store.users == store.users
    // 404 writes nothing; a 500 that wrote something is a charge stopped after its update
    ensures o.status == StatusNotFound ==> o.store == store
    ensures o.status != StatusOk && o.store != store ==>
              && o.status == StatusInternalError
              && body.Parsed? && Classify(body.event) == SubscriptionCharged
              && Readable(Classify(body.event), body.payload)
              && body.payload.value.subscription.entity.id in store.subscriptions
              && o.store == ChargeUpdated(store, body.payload.value.subscription.entity)
  {
    match body
    case NullBody => Outcome(StatusInternalError, store)
    case Parsed(event, payload, _) =>
      match Dispatch(store, event, payload, signature, now, paymentWriteFails)
      case Done(s) => Outcome(StatusOk, s)
      case Failed(f, s) => Outcome(FaultStatus(f), s)
  }

  /** The webhook handler. `now` and `paymentWriteFails` are as for the
      event switch. */
  function Handle(cfg: Config, req: Request, store: Store, now: int, paymentWriteFails: bool): (o: Outcome)
    requires CustomerIdsUnique(store.users)
    ensures req.httpMethod != "POST" ==> o == Outcome(StatusMethodNotAllowed, store)
    ensures req.httpMethod == "POST" && !Present(cfg.secret) ==> o == Outcome(StatusInternalError, store)
    ensures req.httpMethod == "POST" && Present(cfg.secret) && cfg.parse(req.rawBody).None? ==>
              o == Outcome(StatusBadRequest, store)
    ensures req.httpMethod == "POST" && Present(cfg.secret) && cfg.parse(req.rawBody).Some? && !Present(req.signature)
            ==> o == Outcome(StatusBadRequest, store)
    ensures o.status == StatusUnauthorized <==>
              && req.httpMethod == "POST" && Present(cfg.secret) && cfg.parse(req.rawBody).Some?
              && Present(req.signature)
              && req.signature.value != cfg.hmac(cfg.secret.value, cfg.stringify(cfg.parse(req.rawBody).value))
    // a refusal writes nothing, except a charge stopped after its update
    ensures o.status != StatusOk && o.store != store ==>
              && o.status == StatusInternalError
              && cfg.parse(req.rawBody).Some?
              && var body := cfg.parse(req.rawBody).value;
              && body.Parsed? && Classify(body.event) == SubscriptionCharged
              && Readable(Classify(body.event), body.payload)
              && body.payload.value.subscription.entity.id in store.subscriptions
              && o.store == ChargeUpdated(store, body.payload.value.subscription.entity)
    ensures o.store.users == store.users
    ensures o.status in {StatusOk, StatusBadRequest, StatusUnauthorized, StatusNotFound,
                         StatusMethodNotAllowed, StatusInternalError}
  {
    if req.httpMethod != "POST" then
      Outcome(StatusMethodNotAllowed, store)
    else if !Present(cfg.secret) then
      Outcome(StatusInternalError, store)
    else
      match cfg.parse(req.rawBody)
      case None => Outcome(StatusBadRequest, store)
      case Some(body) =>
        if !Present(req.signature) then
          Outcome(StatusBadRequest, store)
        else if !VerifySignature(cfg.hmac, cfg.stringify, body, req.signature.value, cfg.secret) then
          Outcome(StatusUnauthorized, store)
        else
          Process(body, req.signature.value, store, now, paymentWriteFails)
  }

  /** `req` is a POST whose body parses to `body` and whose header carries
      the digest of the re-serialised `body` under the configured secret. */
  predicate Signed(cfg: Config, req: Request, body: Body) {
    && req.httpMethod == "POST" && Present(cfg.secret)
    && cfg.parse(req.rawBody) == Some(body)
    && req.signature == Some(cfg.hmac(cfg.secret.value, cfg.stringify(body)))
    && cfg.hmac(cfg.secret.value, cfg.stringify(body)) != ""
  }

  /** A signed request passes every gate and is answered by the event
      switch. */
  lemma SignedRequestReachesSwitch(cfg: Config, req: Request, store: Store, now: int, paymentWriteFails: bool,
                                   body: Body)
    requires CustomerIdsUnique(store.users)
    requires Signed(cfg, req, body)
    ensures Handle(cfg, req, store, now, paymentWriteFails) == Process(body, req.signature.value, store, now, paymentWriteFails)
  {
  }

  /** A signed charge or status event naming a subscription the store does
      not hold is answered 404 and writes nothing. */
  lemma AbsentSubscriptionAnswersNotFound(cfg: Config, req: Request, store: Store, now: int,
                                          paymentWriteFails: bool, body: Body)
    requires CustomerIdsUnique(store.users)
    requires Signed(cfg, req, body) && body.Parsed?
    requires Updates(Classify(body.event)) && Readable(Classify(body.event), body.payload)
    requires body.payload.value.subscription.entity.id !in store.subscriptions
    ensures Handle(cfg, req, store, now, paymentWriteFails) == Outcome(StatusNotFound, store)
  {
  }

  /** A signed event the switch does not recognise is acknowledged with 200
      and writes nothing. */
  lemma UnhandledEventIsAcknowledged(cfg: Config, req: Request, store: Store, now: int,
                                     paymentWriteFails: bool, body: Body)
    requires CustomerIdsUnique(store.users)
    requires Signed(cfg, req, body) && body.Parsed? && Classify(body.event).Unhandled?
    ensures Handle(cfg, req, store, now, paymentWriteFails) == Outcome(StatusOk, store)
  {
  }

  /** A signed activation for a customer id no user holds is acknowledged
      with 200 and writes nothing. */
  lemma ActivationForUnknownCustomerIsAcknowledged(cfg: Config, req: Request, store: Store, now: int,
                                                   paymentWriteFails: bool, body: Body)
    requires CustomerIdsUnique(store.users)
    requires Signed(cfg, req, body) && body.Parsed? && Classify(body.event) == SubscriptionActivated
    requires Readable(Classify(body.event), body.payload)
    requires UserByCustomer(store.users, body.payload.value.subscription.entity.customerId).None?
    ensures Handle(cfg, req, store, now, paymentWriteFails) == Outcome(StatusOk, store)
  {
  }

  /** A signed charge for a stored subscription whose payment slot holds no
      entity is answered 500, yet the subscription's new status and period
      end are kept and no payment is recorded. */
  lemma ChargeWithoutPaymentEntityKeepsUpdate(cfg: Config, req: Request, store: Store, now: int,
                                              paymentWriteFails: bool, body: Body)
    requires CustomerIdsUnique(store.users)
    requires Signed(cfg, req, body) && body.Parsed? && Classify(body.event) == SubscriptionCharged
    requires body.payload.Some? && body.payload.value.subscription.Entity? && body.payload.value.payment.NoEntity?
    requires body.payload.value.subscription.entity.id in store.subscriptions
    ensures var se := body.payload.value.subscription.entity;
            var o := Handle(cfg, req, store, now, paymentWriteFails);
            && o.status == StatusInternalError
            && o.store.payments == store.payments
            && o.store.subscriptions[se.id].status == se.status
            && o.store.subscriptions[se.id].currentPeriodEnd == se.currentEnd * 1000
  {
  }

  /** Resending that charge unchanged fails the same way: 500 again, the
      same store, and still no payment. */
  lemma ChargeWithoutPaymentEntityFailsOnRetry(cfg: Config, req: Request, store: Store, now1: int, now2: int,
                                               paymentWriteFails: bool, body: Body)
    requires CustomerIdsUnique(store.users)
    requires Signed(cfg, req, body) && body.Parsed? && Classify(body.event) == SubscriptionCharged
    requires body.payload.Some? && body.payload.value.subscription.Entity? && body.payload.value.payment.NoEntity?
    requires body.payload.value.subscription.entity.id in store.subscriptions
    ensures var first := Handle(cfg, req, store, now1, paymentWriteFails);
            var retry := Handle(cfg, req, first.store, now2, paymentWriteFails);
            && retry == first
            && retry.status == StatusInternalError
            && retry.store.payments == store.payments
  {
  }

  /** A signed body resent with a change only in a member the switch never
      reads (a timestamp, say) and with the original header is refused with
      401 and writes nothing, when the serialisation and the digest tell
      the two bodies apart. */
  lemma AlteredUnreadMemberRefused(cfg: Config, req: Request, store: Store, now: int, paymentWriteFails: bool,
                                   original: Body, altered: Body)
    requires CustomerIdsUnique(store.users)
    requires original.Parsed? && altered.Parsed?
    requires altered.event == original.event && altered.payload == original.payload
    requires altered.rest != original.rest
    requires req.httpMethod == "POST" && Present(cfg.secret)
    requires cfg.parse(req.rawBody) == Some(altered)
    requires req.signature == Some(cfg.hmac(cfg.secret.value, cfg.stringify(original)))
    requires cfg.hmac(cfg.secret.value, cfg.stringify(original)) != ""
    requires forall b1, b2 :: cfg.stringify(b1) == cfg.stringify(b2) ==> b1 == b2
    requires forall m1, m2 :: cfg.hmac(cfg.secret.value, m1) == cfg.hmac(cfg.secret.value, m2) ==> m1 == m2
    ensures Handle(cfg, req, store, now, paymentWriteFails) == Outcome(StatusUnauthorized, store)
  {
  }

  /** End to end: a signed one-time `payment.captured` of 99900 paise for
      user u1 is answered 200 and records one payment of 999.00 INR owned
      by u1, not tied to a subscription and carrying the header. */
  lemma SignedOneTimeCaptureRecordsPayment(cfg: Config, req: Request, store: Store, now: int, rest: Json)
    requires CustomerIdsUnique(store.users)
    requires "pay_1" !in store.payments
    requires var e := PaymentEntity("pay_1", "captured", 99900, "INR", "card", Some("order_1"), None,
                                    Some(map["internal_user_id" := "u1"]));
             Signed(cfg, req, Parsed(Some("payment.captured"), Some(Payload(Entity(e), Missing)), rest))
    ensures var o := Handle(cfg, req, store, now, false);
            var p := o.store.payments["pay_1"];
            && o.status == StatusOk
            && o.store.payments.Keys == store.payments.Keys + {"pay_1"}
            && o.store.subscriptions == store.subscriptions && o.store.users == store.users
            && p.amount == 999.0 && p.currency == "INR" && p.userId == "u1" && !p.isSubscriptionPayment
            && p.signature == req.signature
  {
  }

  /** Redelivering the same event converges: the second delivery answers the
      same status and leaves the store as the first delivery left it, even
      when the store's clock has moved on. This holds for a delivery that
      failed after a partial write too, as long as the failure repeats. */
  lemma RedeliveryIsIdempotent(cfg: Config, req: Request, store: Store, now1: int, now2: int,
                               paymentWriteFails: bool)
    requires CustomerIdsUnique(store.users)
    ensures var first := Handle(cfg, req, store, now1, paymentWriteFails);
            var second := Handle(cfg, req, first.store, now2, paymentWriteFails);
            second == first
  {
    if req.httpMethod == "POST" && Present(cfg.secret) && cfg.parse(req.rawBody).Some? && Present(req.signature) {
      var body := cfg.parse(req.rawBody).value;
      if body.Parsed? {
        DispatchIdempotent(store, body.event, body.payload, req.signature.value, now1, now2, paymentWriteFails);
      }
    }
  }

  /** The gateway retries a delivery answered 500. When the retry's payment
      write goes through, the store ends as if the first delivery had
      succeeded: the update kept from the failed attempt is harmless. */
  lemma RetryAfterRefusedPaymentWriteConverges(cfg: Config, req: Request, store: Store, now1: int, now2: int)
    requires CustomerIdsUnique(store.users)
    ensures var first := Handle(cfg, req, store, now1, true);
            Handle(cfg, req, first.store, now2, false) == Handle(cfg, req, store, now1, false)
  {
    if req.httpMethod == "POST" && Present(cfg.secret) && cfg.parse(req.rawBody).Some? && Present(req.signature) {
      var body := cfg.parse(req.rawBody).value;
      if body.Parsed? {
        DispatchRetryConverges(store, body.event, body.payload, req.signature.value, now1, now2);
      }
    }
  }

  /** The effect of one event, applied again to what it left behind, does
      the same: same fault, same store. */
  lemma DispatchIdempotent(store: Store, event: Option<string>, payload: Option<Payload>,
                           signature: string, now1: int, now2: int, paymentWriteFails: bool)
    requires CustomerIdsUnique(store.users)
    ensures var first := Dispatch(store, event, payload, signature, now1, paymentWriteFails);
            Dispatch(first.store, event, payload, signature, now2, paymentWriteFails) == first
  {
    var e := Classify(event);
    if Readable(e, payload) {
      match e
      case Unhandled =>
      case PaymentCaptured =>
        UpsertIdempotent(store.payments, payload.value.payment.entity, signature);
      case SubscriptionActivated =>
        ActivatedIdempotent(store, payload.value.subscription.entity, now1, now2);
      case SubscriptionCharged =>
        var pe := EntityOf(payload.value.payment);
        ChargedIdempotent(store, payload.value.subscription.entity, pe, paymentWriteFails);
      case _ =>
        StatusIdempotent(store, payload.value.subscription.entity);
    }
  }

  /** A delivery whose payment write was refused, followed by one whose
      write goes through, ends where one successful delivery ends. */
  lemma DispatchRetryConverges(store: Store, event: Option<string>, payload: Option<Payload>,
                               signature: string, now1: int, now2: int)
    requires CustomerIdsUnique(store.users)
    ensures var first := Dispatch(store, event, payload, signature, now1, true);
            Dispatch(first.store, event, payload, signature, now2, false)
              == Dispatch(store, event, payload, signature, now1, false)
  {
    var e := Classify(event);
    if Readable(e, payload) {
      match e
      case SubscriptionActivated =>
        ActivatedIdempotent(store, payload.value.subscription.entity, now1, now2);
      case SubscriptionCharged =>
        var se := payload.value.subscription.entity;
        var pe := EntityOf(payload.value.payment);
        ChargedRetryConverges(store, se, pe);
      case _ =>
    }
  }

  lemma UpsertIdempotent(payments: map<PaymentId, Payment>, e: PaymentEntity, signature: string)
    ensures var once := UpsertCapturedPayment(payments, e, signature);
            UpsertCapturedPayment(once, e, signature) == once
  {
  }

  lemma ActivatedIdempotent(store: Store, e: SubscriptionEntity, now1: int, now2: int)
    requires CustomerIdsUnique(store.users)
    ensures var once := ApplyActivated(store, e, now1);
            ApplyActivated(once, e, now2) == once
  {
  }

  /** Updating a row with the values it already holds leaves the store as
      it is. */
  lemma ChargeUpdatedIdempotent(store: Store, se: SubscriptionEntity)
    requires se.id in store.subscriptions
    ensures ChargeUpdated(ChargeUpdated(store, se), se) == ChargeUpdated(store, se)
  {
  }

  lemma ChargedIdempotent(store: Store, se: SubscriptionEntity, pe: Option<PaymentEntity>, paymentWriteFails: bool)
    ensures var first := ApplyCharged(store, se, pe, paymentWriteFails);
            ApplyCharged(first.store, se, pe, paymentWriteFails) == first
  {
  }

  lemma ChargedRetryConverges(store: Store, se: SubscriptionEntity, pe: Option<PaymentEntity>)
    ensures var first := ApplyCharged(store, se, pe, true);
            ApplyCharged(first.store, se, pe, false) == ApplyCharged(store, se, pe, false)
  {
    if se.id in store.subscriptions {
      ChargeUpdatedIdempotent(store, se);
    }
  }

  lemma StatusIdempotent(store: Store, se: SubscriptionEntity)
    ensures var first := ApplyStatus(store, se);
            ApplyStatus(first.store, se) == first
  {
  }

  /** `subscription.activated` followed by `subscription.charged` for the
      same subscription leaves exactly one row for it, carrying the charge's
      status and period end and the activation's owner and plan. */
  lemma ActivatedThenCharged(store: Store, activated: SubscriptionEntity, charged: SubscriptionEntity,
                             pe: PaymentEntity, now: int)
    requires CustomerIdsUnique(store.users)
    requires activated.id == charged.id
    requires UserByCustomer(store.users, activated.customerId).Some?
    ensures var s1 := ApplyActivated(store, activated, now);
            var r := ApplyCharged(s1, charged, Some(pe), false);
            && r.Done?
            && r.store.subscriptions.Keys == store.subscriptions.Keys + {charged.id}
            && r.store.subscriptions[charged.id].status == charged.status
            && r.store.subscriptions[charged.id].currentPeriodEnd == charged.currentEnd * 1000
            && r.store.subscriptions[charged.id].planId == activated.planId
            && r.store.subscriptions[charged.id].userId == UserByCustomer(store.users, activated.customerId).value
  {
  }

  /** A terminal status is overwritten like any other: a later
      `subscription.activated` for a cancelled or completed subscription
      replaces its status. */
  lemma TerminalStatusNotProtected(store: Store, e: SubscriptionEntity, now: int)
    requires CustomerIdsUnique(store.users)
    requires e.id in store.subscriptions
    requires store.subscriptions[e.id].status in {"cancelled", "completed"}
    requires UserByCustomer(store.users, e.customerId).Some?
    ensures ApplyActivated(store, e, now).subscriptions[e.id].status == e.status
  {
  }

  /** A one-time capture of 99900 paise for user u1 creates one payment of
      999.00 INR owned by u1 and not tied to a subscription. */
  lemma CapturedOneTimePaymentScenario(store: Store, signature: string)
    requires "pay_1" !in store.payments
    ensures var e := PaymentEntity("pay_1", "captured", 99900, "INR", "card", Some("order_1"), None,
                                   Some(map["internal_user_id" := "u1"]));
            var p := UpsertCapturedPayment(store.payments, e, signature)["pay_1"];
            && p.amount == 999.0 && p.currency == "INR" && p.userId == "u1" && !p.isSubscriptionPayment
  {
  }

  /** Activation for the customer id of user u1 stores plan_x, the entity's
      status and a period end of 1700000000000 ms (2023-11-14T22:13:20Z). */
  lemma ActivationScenario(store: Store, now: int)
    requires CustomerIdsUnique(store.users)
    requires "u1" in store.users && store.users["u1"].customerId == Some("cust_1")
    ensures var e := SubscriptionEntity("sub_1", "cust_1", "plan_x", "active", 1700000000);
            var row := ApplyActivated(store, e, now).subscriptions["sub_1"];
            && row.userId == "u1" && row.planId == "plan_x" && row.status == "active"
            && row.currentPeriodEnd == 1700000000000
  {
  }
}
